=== FILE: README.md ===
# Profile computations of the GraphQL profile page, in Dafny

The profile page of this repository fetches a student's transactions, results
and skills, and turns them into a summary, a ranked list of skills and two SVG
charts. This project models the computing part of that page and proves what it
promises:

- `getTopUniqueSkills` (in `src/profileManager.js` and, as a copy, in
  `src/utils.js`). The `forEach` loop keeps, per skill type, the largest amount
  seen in an insertion-ordered `Map`. The entries are then turned into
  `{ name, level }` records, sorted by level (highest first, stably) and cut to
  `limit` (8 by default). Both copies are methods with the loop and its
  invariant. They are proved equal to one specification function
  (`Skills.TopUniqueSkills`), and the lemmas of module `Skills` prove what that
  function returns:
  - one record per type that has a positive amount;
  - that type's maximum amount, not its sum;
  - levels that never grow along the list;
  - ties kept in the order of first appearance;
  - `min(limit, number of such types)` records;
  - no unselected type beats a selected one.
- The summary total: the transactions of type `xp` filtered out and summed, and
  `formatXP`, which picks the unit ` XP`, ` KB` or ` MB` by threshold and scales
  the amount.
- `renderXpBarChart`: the per-project grouping loop over a plain object. The
  project key is the object's name, or `ID <objectId>`. The loop resets a falsy
  total to 0 and then adds the amount. The model covers the maximum, and the
  geometry and label of each bar (first four characters of the project name).
- `renderPassFailPieChart` and `describeArc`: the pass and fail counts, the
  slice angles, and the SVG path with its large-arc flag. The path is a list of
  tokens in the order the source joins them.

JavaScript's `Map`, and a plain object with non-index keys, keep keys in
insertion order; module `OrderedMaps` models that. Module `JsBuiltins` models
the library calls used:
- `slice(0, end)`, including a negative end;
- `map`;
- `sort` with a numeric comparator, which is stable since ECMAScript 2019; it is
  modelled as insertion sort;
- `String.prototype.replace` with a string pattern, which replaces only the
  first occurrence.

The source maps the entries to skills and then sorts. The model proves that
this equals sorting the entries and then mapping (`JsBuiltins.SortMap`), so the
properties are stated about the entries.

When every counted result passed, the pass slice of the pie runs from -90 to
270 degrees. With exact trigonometry its arc would start and end at the same
point, and SVG renderers skip an arc whose endpoints coincide. The model proves
this only under the assumption that `polarToCartesian` maps -90 and 270 degrees
to one point (`Charts.FullPassArcIsClosed`). In double precision the two points
differ in the last digit of x, so whether the arc is drawn depends on the
renderer's precision.

## Model

| member | source | states |
|---|---|---|
| `OrderedMaps.Put` | src/profileManager.js:64 | setting a key keeps the map valid; an existing key keeps its position, a new key is appended, and only that key's value changes |
| `OrderedMaps.EntriesDistinctKeys` | src/profileManager.js:68 | no key appears twice among the entries |
| `OrderedMaps.EntriesCoverKeys` | src/profileManager.js:68 | there is an entry for a key exactly when the dictionary holds it, and each entry carries its key's stored value |
| `OrderedMaps.KeyCount` | src/profileManager.js:59 | the insertion order lists as many keys as the dictionary holds |
| `OrderedMaps.PutSum` | src/charts.js:18 | setting a key changes the sum of all values by the new value minus the old one (0 when absent) |
| `JsBuiltins.Slice` | src/profileManager.js:74 | `slice(0, end)` is a prefix of length `min(end, n)`, or `max(0, n + end)` for a negative end |
| `JsBuiltins.SliceMap` | src/profileManager.js:69-74 | slicing commutes with mapping |
| `JsBuiltins.Insert` | src/profileManager.js:73 | one insertion step of the sort adds exactly the one element |
| `JsBuiltins.SortDesc` | src/profileManager.js:73 | the sorted list is a permutation of the input |
| `JsBuiltins.InsertSplit` | src/profileManager.js:73 | an element is inserted after every element whose key is at least its own and before the rest |
| `JsBuiltins.InsertSorted` | src/profileManager.js:73 | inserting into a descending list keeps it descending |
| `JsBuiltins.SortDescSorted` | src/profileManager.js:73 | the result of the sort is in descending order of the key |
| `JsBuiltins.SortDescStable` | src/profileManager.js:73 | elements with equal keys keep their relative order (a stable sort) |
| `JsBuiltins.SortMap` | src/profileManager.js:69-73 | mapping then sorting by the mapped key equals sorting by the original key then mapping |
| `JsBuiltins.ReplaceFirstAt` | src/profileManager.js:70 | `replace` with a string pattern rewrites only the first occurrence of the pattern |
| `JsBuiltins.ReplaceFirstAbsent` | src/profileManager.js:70 | a string without the pattern is returned unchanged |
| `Data.SumAmountsAppend` | src/profileManager.js:25 | the amount sum is additive over concatenation |
| `Skills.KeepMaxKeys` | src/profileManager.js:61-66 | a type is in the map exactly when one of its records has a positive amount; stored amounts are positive |
| `Skills.KeepMaxValues` | src/profileManager.js:61-66 | a type's stored amount is the largest amount among its records |
| `Skills.KeepMaxOrder` | src/profileManager.js:59-66 | types are listed in the order in which each first got a positive amount |
| `Skills.KeepMaxCount` | src/profileManager.js:59-66 | the map holds exactly the types with a positive amount, once each |
| `Skills.TopUniqueSkillsFromEntries` | src/profileManager.js:68-74 | the ranked skills are the selected entries, each turned into a skill |
| `Skills.TopEntryInMap` | src/profileManager.js:68-74 | every selected entry is an entry of the map |
| `Skills.TopEntriesCount` | src/profileManager.js:74 | `min(limit, number of types with a positive amount)` entries are kept (fewer from the back for a negative limit) |
| `Skills.TopEntriesUnique` | src/profileManager.js:58-75 | no type is selected twice |
| `Skills.TopEntriesMax` | src/profileManager.js:61-66 | every selected entry carries its type's maximum amount, which is positive |
| `Skills.TopEntriesSorted` | src/profileManager.js:73 | the selected amounts never grow |
| `Skills.TopEntriesStable` | src/profileManager.js:73 | selected entries with equal amounts appear in the order their types first got a positive amount |
| `Skills.TopEntriesAreTop` | src/profileManager.js:58-75 | no record of an unselected type has an amount above any selected amount |
| `Skills.TopUniqueSkillsSpec` | src/profileManager.js:68-74 | each skill's name is its type without the first `skill_`, its level the amount over 100; levels never grow; the count is `min(limit, types with a positive amount)` |
| `ProfileManager.XpTransactions` | src/profileManager.js:24 | only transactions of type `xp` are kept, every one of them, and the result is no longer than the input |
| `ProfileManager.XpTransactionsCount` | src/profileManager.js:24 | each transaction of type `xp` is kept as many times as it occurs; no other transaction is kept |
| `ProfileManager.XpTransactionsAppend` | src/profileManager.js:24 | filtering a concatenation concatenates the filtered pieces, so the kept transactions stay in input order |
| `ProfileManager.XpTransactionsSingle` | src/profileManager.js:24 | a single transaction is kept exactly when its type is `xp` |
| `ProfileManager.TotalXpIsSumOfContributions` | src/profileManager.js:24-25 | filtering then summing equals summing every transaction's contribution (its amount if of type `xp`, else 0) |
| `ProfileManager.TotalXpAppend` | src/profileManager.js:24-25 | the total is additive over concatenation |
| `ProfileManager.TotalXpIgnoresOtherTypes` | src/profileManager.js:24 | a transaction of another type, anywhere, does not change the total |
| `ProfileManager.FormatXp` | src/profileManager.js:77-81 | the unit is XP below 1000, KB below 1000000, MB otherwise; the exact scaled value times the unit's divisor is the amount; the exact KB and MB values lie in [1, 1000) and [1, ∞); the printed suffix is ` XP` exactly below 1000 and ` MB` exactly from 1000000 |
| `ProfileManager.GetTopUniqueSkills` | src/profileManager.js:58-75 | the loop and pipeline return the specified top skills: `min(limit, types with a positive amount)` of them, levels never growing |
| `Utils.GetTopUniqueSkills` | src/utils.js:20-37 | the copy returns the specified top skills, with the same count and order |
| `Utils.CopiesAgree` | src/utils.js:20-37 | the two copies of `getTopUniqueSkills` return the same list for every input and limit |
| `Charts.GroupTotals` | src/charts.js:12-19 | the grouped totals form a valid dictionary with no more projects than transactions, and at least one when there is a transaction |
| `Charts.GroupTotalsValues` | src/charts.js:13-18 | each project total is the sum of the amounts counted under it; an absent project totals 0 |
| `Charts.GroupTotalsKeys` | src/charts.js:14 | the projects are exactly the keys of the transactions |
| `Charts.GroupTotalsOrder` | src/charts.js:12-21 | projects are listed in the order in which they first occur |
| `Charts.GroupingConserves` | src/charts.js:13-18 | the project totals add up to the sum of all amounts |
| `Charts.GroupTotalsSpec` | src/charts.js:12-19 | the per-project sums and their conservation together |
| `Charts.FalsyReset` | src/charts.js:15-18 | resetting a falsy total to 0 before adding gives the same as adding to the stored total |
| `Charts.KeySumNonNegative` | src/charts.js:18 | with no negative amount no project total is negative |
| `Charts.GroupByProject` | src/charts.js:12-19 | the loop builds the grouped totals: per-project sums that add up to the sum of all amounts |
| `Charts.MaxOver` | src/charts.js:22 | the result is at least every listed value and equal to one of them |
| `Charts.MaxXp` | src/charts.js:22 | `maxXp` is the largest project total and is attained |
| `Charts.BarHeightBounds` | src/charts.js:27 | for totals between 0 and the maximum, heights lie in [0, 250], the maximum getting 250 |
| `Charts.LayoutBars` | src/charts.js:26-51 | one bar per project in order, at x = 50·index + 20, width 30, standing on y = 300, label centred at x + 15, y = 295, text the first four characters of the name; 20 pixels between bars |
| `Charts.TallestProject` | src/charts.js:22-27 | with no negative amount every total lies in [0, maxXp] and some project reaches maxXp |
| `Charts.BarsFit` | src/charts.js:27-32 | with no negative amount every bar fits in 250 pixels and the tallest uses all of them |
| `Charts.BarsShowKeySums` | src/charts.js:26-32 | each bar's height is its project's summed amount over the maximum |
| `Charts.RenderXpBarChart` | src/charts.js:12-51 | with no transaction there is no bar; otherwise the chart draws each project's sum at its position, and with no negative amount heights lie in [0, 250] and one bar is full height |
| `Charts.CountGrade` | src/charts.js:59-60 | a count never exceeds the number of results |
| `Charts.CountGradeIsCardinality` | src/charts.js:59-60 | the count is the number of results with exactly that grade |
| `Charts.PassFailTotal` | src/charts.js:59-61 | passes plus fails never exceed the results, and equal them exactly when every grade is 0 or 1 |
| `Charts.SliceAngles` | src/charts.js:74-80 | the pass slice starts at -90 and the fail slice ends at 270, they meet, each spans its share of 360 degrees, and the spans add up to 360 |
| `Charts.DescribeArc` | src/charts.js:91-103 | 15 tokens: move to the point at the end angle, arc with radius, rotation 0, large-arc flag and sweep 0 to the point at the start angle, line to the centre, close; the flag is "1" exactly when the span exceeds 180 |
| `Charts.PieLargeArcs` | src/charts.js:74-95 | a slice takes the large arc exactly when it holds more than half of the counted results, never both; the pass arc starts where the fail arc ends |
| `Charts.FullPassArcIsClosed` | src/charts.js:74-99 | with no fails, the fail slice starts and ends at 270 degrees with the small-arc flag, the pass arc takes the large-arc flag, and, assuming `polarToCartesian` maps -90 and 270 degrees to one point (exact trigonometry; in doubles they differ in the last digit), the pass arc starts and ends at that point |
| `Charts.HalfShare` | src/charts.js:74-95 | a share of 360 degrees exceeds 180 exactly when the part is more than half of the total |

## Left out

- Rendering: creating SVG and DOM elements, colours, font attributes, the CSS
  transition and `container.innerHTML` are left out. The model returns the
  computed attributes, a `Bar` per project and a path as a token list.
- `polarToCartesian` (`src/charts.js:105-111`) uses cosine and sine, so it is a
  function parameter. Lemmas that need two of its points to coincide take that
  as a precondition.
- Number formatting: `toFixed(2)` in `formatXP` and the number-to-text
  conversion of `join(" ")` in `describeArc`. `ProfileManager.FormatXp` returns
  the exact scaled value and the unit; the path keeps numbers as numbers. The
  [1, 1000) bound of `FormatXp` is about the exact value, not the printed label:
  for amounts 999995 to 999999 `toFixed(2)` rounds to `1000.00 KB`.
- Floating point: amounts are integers and levels, heights and angles are exact
  reals. Rounding of `amount / 100`, of the bar height and of the angles is not
  modelled.
- Charts.RenderXpBarChart: requires a non-zero maximum when there is a
  transaction, because the source divides by `maxXp` unguarded. With no
  transaction the source draws an empty chart (the `-Infinity` from `Math.max()`
  is never used), and so does the model.
- Charts.RenderPassFailPie: requires a non-zero count of passes plus fails. The
  source divides by the total unguarded, which gives NaN coordinates.
- In `renderPassFailPieChart`, `passAngle`, `failAngle`, `passX` and `passY`
  (`src/charts.js:66-70`) are computed and never used.
- Charts.LayoutBars: the label is the first four characters of the project
  name. JavaScript's `slice(0, 4)` counts UTF-16 code units, so for a name with
  a character outside the Basic Multilingual Plane the source's label can end
  in half a surrogate pair. The model counts characters. The same holds for
  `replace` on skill names, which is unaffected because `skill_` is ASCII.
- Plain-object key order: `Object.keys` lists integer-like keys first, in
  numeric order. The model keeps insertion order for every key, which matches
  the source only for keys that do not look like array indices.
- Inherited object properties: a project named like a built-in property (such
  as `constructor`) would read a function from the prototype. This is not
  modelled.
- Types: amounts are assumed to be numbers. Non-numeric, missing or NaN
  amounts, and the textual form of `objectId`, are not modelled. A transaction's
  `object.name` is `None` when either the object or its name is missing.
- `renderXpProgressChart` and `renderAuditRatioBarChart` are not part of this
  model. Neither is the rest of the page: fetching, authentication and the UI
  helpers.

=== FILE: charts.dfy ===
/** The data preparation of src/charts.js: the XP-per-project bar chart
    (`renderXpBarChart`) and the pass/fail pie chart (`renderPassFailPieChart`,
    `describeArc`). SVG element creation is left to the caller: the model returns
    the attributes the code sets. */
module Charts {
  import opened Data
  import opened OrderedMaps
  import opened JsBuiltins

  // ---------------------------------------------------------------------------
  // XP per project

  /** The project a transaction is counted under: the object's name when it is a
      non-empty string, otherwise `ID ` followed by the object id. */
  function ProjectKey(tx: Transaction): string
  {
    match tx.objectName
    case Some(name) => if name != "" then name else "ID " + tx.objectId
    case None => "ID " + tx.objectId
  }

  /** One `forEach` step: the project's running total (0 when absent) grows by
      the transaction's amount. */
  function GroupStep(m: OrderedMap, tx: Transaction): (r: OrderedMap)
    requires Valid(m)
    ensures Valid(r)
  {
    Put(m, ProjectKey(tx), GetOr(m, ProjectKey(tx), 0) + tx.amount)
  }

  /** `projectData` after the `forEach` loop has seen every transaction. */
  function GroupTotals(transactions: seq<Transaction>): (m: OrderedMap)
    ensures Valid(m)
    ensures |m.keys| <= |transactions|
    ensures |transactions| > 0 ==> |m.keys| > 0
  {
    if |transactions| == 0 then Empty()
    else GroupStep(GroupTotals(transactions[..|transactions| - 1]), transactions[|transactions| - 1])
  }

  /** Reference definition: the sum of the amounts of the transactions counted
      under `key`. */
  function KeySum(transactions: seq<Transaction>, key: string): int
  {
    if |transactions| == 0 then 0
    else
      var last := transactions[|transactions| - 1];
      KeySum(transactions[..|transactions| - 1], key) + (if ProjectKey(last) == key then last.amount else 0)
  }

  ghost predicate KeyAt(transactions: seq<Transaction>, i: int, key: string)
  {
    0 <= i < |transactions| && ProjectKey(transactions[i]) == key
  }

  /** Project k is first seen before project u is. */
  ghost predicate SeenFirst(transactions: seq<Transaction>, k: string, u: string)
  {
    forall j :: KeyAt(transactions, j, u) ==> exists i :: i < j && KeyAt(transactions, i, k)
  }

  /** Every project total is the sum of the amounts counted under it; a project
      that does not occur totals 0. */
  lemma {:induction false} GroupTotalsValues(transactions: seq<Transaction>)
    ensures forall k :: GetOr(GroupTotals(transactions), k, 0) == KeySum(transactions, k)
  {
    if |transactions| > 0 {
      GroupTotalsValues(transactions[..|transactions| - 1]);
    }
  }

  /** Some transaction is counted under `key`. */
  ghost predicate Occurs(transactions: seq<Transaction>, key: string)
  {
    exists i :: KeyAt(transactions, i, key)
  }

  lemma OccursSnoc(transactions: seq<Transaction>, key: string)
    requires |transactions| > 0
    ensures Occurs(transactions, key) <==>
      Occurs(transactions[..|transactions| - 1], key) || ProjectKey(transactions[|transactions| - 1]) == key
  {
    var p := transactions[..|transactions| - 1];
    if Occurs(transactions, key) && ProjectKey(transactions[|transactions| - 1]) != key {
      var i :| KeyAt(transactions, i, key);
      assert KeyAt(p, i, key);
    }
    if Occurs(p, key) {
      var i :| KeyAt(p, i, key);
      assert KeyAt(transactions, i, key);
    }
    if ProjectKey(transactions[|transactions| - 1]) == key {
      assert KeyAt(transactions, |transactions| - 1, key);
    }
  }

  /** The projects are exactly the keys of the transactions. */
  lemma {:induction false} GroupTotalsKeys(transactions: seq<Transaction>)
    ensures forall k :: k in GroupTotals(transactions).values <==> Occurs(transactions, k)
  {
    if |transactions| > 0 {
      GroupTotalsKeys(transactions[..|transactions| - 1]);
      forall k ensures k in GroupTotals(transactions).values <==> Occurs(transactions, k) {
        OccursSnoc(transactions, k);
      }
    }
  }

  /** An order already settled stays settled when a transaction is appended. */
  lemma SeenFirstSnoc(p: seq<Transaction>, tx: Transaction, k: string, u: string)
    requires Occurs(p, k) && SeenFirst(p, k, u)
    ensures SeenFirst(p + [tx], k, u)
  {
    var q := p + [tx];
    var w :| KeyAt(p, w, k);
    assert KeyAt(q, w, k);
    forall j | KeyAt(q, j, u) ensures exists i :: i < j && KeyAt(q, i, k) {
      if j < |p| {
        assert KeyAt(p, j, u);
        var i :| i < j && KeyAt(p, i, k);
        assert KeyAt(q, i, k);
      } else {
        assert w < j;
      }
    }
  }

  /** Projects are listed in the order in which they first occur. */
  lemma {:induction false} GroupTotalsOrder(transactions: seq<Transaction>)
    ensures forall i, j :: 0 <= i < j < |GroupTotals(transactions).keys| ==>
      SeenFirst(transactions, GroupTotals(transactions).keys[i], GroupTotals(transactions).keys[j])
  {
    if |transactions| > 0 {
      var n := |transactions| - 1;
      var p, tx := transactions[..n], transactions[n];
      assert transactions == p + [tx];
      var m, r := GroupTotals(p), GroupTotals(transactions);
      GroupTotalsOrder(p);
      GroupTotalsKeys(p);
      forall i, j | 0 <= i < j < |r.keys| ensures SeenFirst(transactions, r.keys[i], r.keys[j]) {
        assert r.keys[i] in m.values;
        if j < |m.keys| {
          assert SeenFirst(p, r.keys[i], r.keys[j]);
        } else {
          assert !Occurs(p, r.keys[j]);
        }
        SeenFirstSnoc(p, tx, r.keys[i], r.keys[j]);
      }
    }
  }

  /** One step adds the transaction's amount to the sum of the totals. */
  lemma GroupStepSum(m: OrderedMap, tx: Transaction)
    requires Valid(m)
    ensures SumValues(GroupStep(m, tx)) == SumValues(m) + tx.amount
  {
    PutSum(m, ProjectKey(tx), GetOr(m, ProjectKey(tx), 0) + tx.amount);
  }

  /** Grouping loses nothing and counts nothing twice: the project totals add
      up to the sum of all amounts. */
  lemma {:induction false} GroupingConserves(transactions: seq<Transaction>)
    ensures SumValues(GroupTotals(transactions)) == SumAmounts(transactions)
  {
    if |transactions| > 0 {
      var n := |transactions| - 1;
      var m := GroupTotals(transactions[..n]);
      GroupingConserves(transactions[..n]);
      GroupStepSum(m, transactions[n]);
    }
  }

  /** The loop body's reset of a falsy total to 0 before adding to it has the
      same effect as adding to the stored total (0 when absent). */
  lemma FalsyReset(m: OrderedMap, tx: Transaction, m1: OrderedMap)
    requires Valid(m)
    requires m1 == if GetOr(m, ProjectKey(tx), 0) == 0 then Put(m, ProjectKey(tx), 0) else m
    ensures Valid(m1) && ProjectKey(tx) in m1.values
    ensures Put(m1, ProjectKey(tx), m1.values[ProjectKey(tx)] + tx.amount) == GroupStep(m, tx)
  {
    var k := ProjectKey(tx);
    if k in m.values && m.values[k] == 0 {
      assert m.values[k := 0] == m.values;
    }
  }

  lemma GroupTotalsPrefix(transactions: seq<Transaction>, i: nat)
    requires i < |transactions|
    ensures GroupTotals(transactions[..i + 1]) == GroupStep(GroupTotals(transactions[..i]), transactions[i])
  {
    assert transactions[..i + 1][..i] == transactions[..i];
  }

  /** With no negative amount, no project total is negative. */
  lemma {:induction false} KeySumNonNegative(transactions: seq<Transaction>, key: string)
    requires forall i :: 0 <= i < |transactions| ==> transactions[i].amount >= 0
    ensures KeySum(transactions, key) >= 0
  {
    if |transactions| > 0 {
      KeySumNonNegative(transactions[..|transactions| - 1], key);
    }
  }

  /** The two facts the grouping loop is proved against. */
  lemma GroupTotalsSpec(transactions: seq<Transaction>)
    ensures var m := GroupTotals(transactions);
      && (forall k :: k in m.values ==> m.values[k] == KeySum(transactions, k))
      && SumValues(m) == SumAmounts(transactions)
  {
    GroupTotalsValues(transactions);
    GroupingConserves(transactions);
  }

  /** Lines 12-19: build `projectData` in place, one transaction at a time. */
  method GroupByProject(transactions: seq<Transaction>) returns (projectData: OrderedMap)
    ensures Valid(projectData) && projectData == GroupTotals(transactions)
    ensures forall k :: k in projectData.values ==> projectData.values[k] == KeySum(transactions, k)
    ensures SumValues(projectData) == SumAmounts(transactions)
  {
    projectData := Empty();
    for i := 0 to |transactions|
      invariant projectData == GroupTotals(transactions[..i])
    {
      var tx := transactions[i];
      var projectName := ProjectKey(tx);
      if GetOr(projectData, projectName, 0) == 0 {
        // an absent key, or a total of 0, is falsy: (re)start it at 0
        projectData := Put(projectData, projectName, 0);
      }
      FalsyReset(GroupTotals(transactions[..i]), tx, projectData);
      GroupTotalsPrefix(transactions, i);
      projectData := Put(projectData, projectName, projectData.values[projectName] + tx.amount);
    }
    assert transactions[..|transactions|] == transactions;
    GroupTotalsSpec(transactions);
  }

  /** The largest of the values listed in `ks`. */
  function MaxOver(ks: seq<string>, vals: map<string, int>): (mx: int)
    requires |ks| > 0
    requires forall k :: k in ks ==> k in vals
    ensures forall k :: k in ks ==> vals[k] <= mx
    ensures exists k :: k in ks && vals[k] == mx
  {
    if |ks| == 1 then vals[ks[0]]
    else
      assert ks == ks[..|ks| - 1] + [ks[|ks| - 1]];
      Max(MaxOver(ks[..|ks| - 1], vals), vals[ks[|ks| - 1]])
  }

  /** `maxXp`: the largest project total. */
  function MaxXp(projectData: OrderedMap): (mx: int)
    requires Valid(projectData) && |projectData.keys| > 0
    ensures forall k :: k in projectData.values ==> projectData.values[k] <= mx
    ensures exists k :: k in projectData.values && projectData.values[k] == mx
  {
    MaxOver(projectData.keys, projectData.values)
  }

  /** The rectangle and the label drawn for one project. */
  datatype Bar = Bar(x: int, y: real, width: int, height: real, labelX: int, labelY: int, text: string)

  /** A bar's height: its share of the largest total, out of 250 pixels. */
  function BarHeight(total: int, maxXp: int): real
    requires maxXp != 0
  {
    total as real / maxXp as real * 250.0
  }

  /** Non-negative totals give heights within the 250 pixels, and the largest
      total the full height. */
  lemma BarHeightBounds(total: int, maxXp: int)
    requires 0 <= total <= maxXp && 0 < maxXp
    ensures 0.0 <= BarHeight(total, maxXp) <= 250.0
    ensures total == maxXp ==> BarHeight(total, maxXp) == 250.0
  {
    var q := total as real / maxXp as real;
    assert q * maxXp as real == total as real;
    assert 0.0 <= q <= 1.0;
  }

  /** The attributes set for the bar and label of project number `index`. */
  ghost predicate BarDrawn(b: Bar, index: int, project: string, total: int, maxXp: int)
    requires maxXp != 0
  {
    && b.x == index * 50 + 20
    && b.width == 30
    && b.height == BarHeight(total, maxXp)
    && b.y == 300.0 - b.height
    && b.labelX == index * 50 + 35
    && b.labelY == 295
    && b.text == Slice(project, 4)
  }

  /** Lines 26-51: one bar per project, in project order. Bars stand on the
      baseline y = 300, sit 20 pixels apart, and carry labels centred under them
      that are the first (at most) four characters of the project name. */
  method LayoutBars(projectData: OrderedMap, maxXp: int) returns (bars: seq<Bar>)
    requires Valid(projectData) && maxXp != 0
    ensures |bars| == |projectData.keys|
    ensures forall i :: 0 <= i < |bars| ==>
      BarDrawn(bars[i], i, projectData.keys[i], projectData.values[projectData.keys[i]], maxXp)
    ensures forall i :: 0 <= i < |bars| ==>
      && bars[i].y + bars[i].height == 300.0
      && bars[i].labelX == bars[i].x + bars[i].width / 2
      && |bars[i].text| == Min(4, |projectData.keys[i]|)
      && bars[i].text == projectData.keys[i][..|bars[i].text|]
    ensures forall i :: 0 <= i < |bars| - 1 ==> bars[i].x + bars[i].width + 20 == bars[i + 1].x
  {
    var projects := projectData.keys;
    bars := [];
    for index := 0 to |projects|
      invariant |bars| == index
      invariant forall i :: 0 <= i < index ==>
        BarDrawn(bars[i], i, projects[i], projectData.values[projects[i]], maxXp)
    {
      var project := projects[index];
      var barHeight := projectData.values[project] as real / maxXp as real * 250.0;
      var bar := Bar(index * 50 + 20, 300.0 - barHeight, 30, barHeight, index * 50 + 35, 295, Slice(project, 4));
      bars := bars + [bar];
    }
  }

  /** With no negative amount, every total lies between 0 and the maximum, and
      some project (number t) reaches it. */
  lemma TallestProject(transactions: seq<Transaction>) returns (t: nat)
    requires |transactions| > 0
    requires forall i :: 0 <= i < |transactions| ==> transactions[i].amount >= 0
    ensures var m := GroupTotals(transactions);
      && t < |m.keys| && m.values[m.keys[t]] == MaxXp(m)
      && forall k :: k in m.values ==> 0 <= m.values[k] <= MaxXp(m)
  {
    var m := GroupTotals(transactions);
    GroupTotalsValues(transactions);
    forall k | k in m.values ensures 0 <= m.values[k] {
      assert GetOr(m, k, 0) == KeySum(transactions, k);
      KeySumNonNegative(transactions, k);
    }
    var mx := MaxXp(m);
    var top :| top in m.values && m.values[top] == mx;
    t :| 0 <= t < |m.keys| && m.keys[t] == top;
  }

  /** With no negative amount, the bars laid out for the project totals fit in
      the 250 pixels and the tallest one uses all of them. */
  lemma BarsFit(transactions: seq<Transaction>, bars: seq<Bar>)
    requires |transactions| > 0
    requires forall i :: 0 <= i < |transactions| ==> transactions[i].amount >= 0
    requires MaxXp(GroupTotals(transactions)) != 0
    requires |bars| == |GroupTotals(transactions).keys|
    requires forall i :: 0 <= i < |bars| ==>
      bars[i].height == BarHeight(GroupTotals(transactions).values[GroupTotals(transactions).keys[i]], MaxXp(GroupTotals(transactions)))
    ensures forall i :: 0 <= i < |bars| ==> 0.0 <= bars[i].height <= 250.0
    ensures exists i :: 0 <= i < |bars| && bars[i].height == 250.0
  {
    var m := GroupTotals(transactions);
    var t := TallestProject(transactions);
    forall i | 0 <= i < |bars| ensures 0.0 <= bars[i].height <= 250.0 {
      BarHeightBounds(m.values[m.keys[i]], MaxXp(m));
    }
    BarHeightBounds(MaxXp(m), MaxXp(m));
  }

  /** The bars laid out for the project totals show each project's sum. */
  lemma BarsShowKeySums(transactions: seq<Transaction>, bars: seq<Bar>)
    requires |transactions| > 0
    requires MaxXp(GroupTotals(transactions)) != 0
    requires |bars| == |GroupTotals(transactions).keys|
    requires forall i :: 0 <= i < |bars| ==>
      BarDrawn(bars[i], i, GroupTotals(transactions).keys[i],
               GroupTotals(transactions).values[GroupTotals(transactions).keys[i]], MaxXp(GroupTotals(transactions)))
    ensures forall i :: 0 <= i < |bars| ==>
      BarDrawn(bars[i], i, GroupTotals(transactions).keys[i],
               KeySum(transactions, GroupTotals(transactions).keys[i]), MaxXp(GroupTotals(transactions)))
  {
    var m := GroupTotals(transactions);
    GroupTotalsValues(transactions);
    forall i | 0 <= i < |bars| ensures m.values[m.keys[i]] == KeySum(transactions, m.keys[i]) {
      assert GetOr(m, m.keys[i], 0) == KeySum(transactions, m.keys[i]);
    }
  }

  /** `renderXpBarChart` without the SVG: group, take the maximum, lay out the bars.
      With no transaction there is no project and no bar. Otherwise the source
      divides by `maxXp` unguarded, so the model requires it non-zero. */
  method RenderXpBarChart(transactions: seq<Transaction>) returns (bars: seq<Bar>)
    requires |transactions| > 0 ==> MaxXp(GroupTotals(transactions)) != 0
    ensures |bars| == |GroupTotals(transactions).keys|
    ensures |transactions| == 0 ==> bars == []
    ensures forall i :: 0 <= i < |bars| ==>
      BarDrawn(bars[i], i, GroupTotals(transactions).keys[i],
               KeySum(transactions, GroupTotals(transactions).keys[i]), MaxXp(GroupTotals(transactions)))
    ensures (forall i :: 0 <= i < |transactions| ==> transactions[i].amount >= 0) ==>
      && (forall i :: 0 <= i < |bars| ==> 0.0 <= bars[i].height <= 250.0)
      && (|transactions| > 0 ==> exists i :: 0 <= i < |bars| && bars[i].height == 250.0)
  {
    var projectData := GroupByProject(transactions);
    if |projectData.keys| == 0 {
      // no project: the maximum of no values (-Infinity) is never used, and the
      // chart is drawn without bars
      bars := [];
      return;
    }
    var maxXp := MaxXp(projectData);
    bars := LayoutBars(projectData, maxXp);
    BarsShowKeySums(transactions, bars);
    if forall i :: 0 <= i < |transactions| ==> transactions[i].amount >= 0 {
      BarsFit(transactions, bars);
    }
  }

  // ---------------------------------------------------------------------------
  // Pass / fail pie

  /** The number of results whose grade is exactly `grade`. */
  function CountGrade(results: seq<ResultRecord>, grade: real): (n: nat)
    ensures n <= |results|
  {
    if |results| == 0 then 0
    else CountGrade(results[..|results| - 1], grade) + (if results[|results| - 1].grade == Some(grade) then 1 else 0)
  }

  /** `passCount`: grade 1. */
  function PassCount(results: seq<ResultRecord>): nat
  {
    CountGrade(results, 1.0)
  }

  /** `failCount`: grade 0. */
  function FailCount(results: seq<ResultRecord>): nat
  {
    CountGrade(results, 0.0)
  }

  /** The count is the number of positions holding that grade. */
  lemma {:induction false} CountGradeIsCardinality(results: seq<ResultRecord>, grade: real)
    ensures CountGrade(results, grade) == |set i | 0 <= i < |results| && results[i].grade == Some(grade)|
  {
    if |results| > 0 {
      var n := |results| - 1;
      var p := results[..n];
      CountGradeIsCardinality(p, grade);
      var before := set i | 0 <= i < n && p[i].grade == Some(grade);
      var after := set i | 0 <= i < |results| && results[i].grade == Some(grade);
      if results[n].grade == Some(grade) {
        assert after == before + {n};
      } else {
        assert after == before;
      }
    }
  }

  /** Passes and fails never outnumber the results, and they account for all of
      them exactly when every grade is 0 or 1. */
  lemma {:induction false} PassFailTotal(results: seq<ResultRecord>)
    ensures PassCount(results) + FailCount(results) <= |results|
    ensures PassCount(results) + FailCount(results) == |results| <==>
      forall i :: 0 <= i < |results| ==> results[i].grade == Some(1.0) || results[i].grade == Some(0.0)
  {
    if |results| > 0 {
      var n := |results| - 1;
      var p := results[..n];
      PassFailTotal(p);
      if forall i :: 0 <= i < |results| ==> results[i].grade == Some(1.0) || results[i].grade == Some(0.0) {
        forall i | 0 <= i < n ensures p[i].grade == Some(1.0) || p[i].grade == Some(0.0) {
          assert p[i] == results[i];
        }
      } else {
        var i :| 0 <= i < |results| && !(results[i].grade == Some(1.0) || results[i].grade == Some(0.0));
        if i < n {
          assert p[i] == results[i];
        }
      }
    }
  }

  /** Slice boundaries in degrees: the pass slice from -90 to the boundary, the
      fail slice from the boundary to 270. */
  datatype PieAngles = PieAngles(passStart: real, passEnd: real, failStart: real, failEnd: real)

  /** Lines 74 and 80. Each slice spans its share of 360 degrees, and the two
      spans close the circle. The source divides by the total unguarded. */
  function SliceAngles(passCount: nat, failCount: nat): (a: PieAngles)
    requires passCount + failCount > 0
    ensures a.passStart == -90.0 && a.failEnd == 270.0 && a.passEnd == a.failStart
    ensures a.passEnd - a.passStart == passCount as real / (passCount + failCount) as real * 360.0
    ensures a.failEnd - a.failStart == failCount as real / (passCount + failCount) as real * 360.0
    ensures (a.passEnd - a.passStart) + (a.failEnd - a.failStart) == 360.0
    ensures -90.0 <= a.passEnd <= 270.0
  {
    var total := passCount + failCount;
    var share := passCount as real / total as real;
    var rest := failCount as real / total as real;
    assert share * total as real == passCount as real;
    assert rest * total as real == failCount as real;
    assert share + rest == 1.0;
    var boundary := share * 360.0 - 90.0;
    PieAngles(-90.0, boundary, boundary, 270.0)
  }

  datatype Point = Point(x: real, y: real)

  /** The items joined by spaces into an SVG path: command letters and flags are
      strings, coordinates are numbers. */
  datatype PathToken = Word(text: string) | Num(value: real)

  function LargeArcFlag(startAngle: real, endAngle: real): string
  {
    if endAngle - startAngle <= 180.0 then "0" else "1"
  }

  /** `describeArc(x, y, radius, startAngle, endAngle)`. The trigonometry of
      `polarToCartesian` is a parameter: its points are opaque here. The path moves
      to the point at `endAngle`, arcs (radius, radius, rotation 0, the large-arc
      flag, sweep 0) to the point at `startAngle`, draws a line to the centre and
      closes. The flag is "1" exactly when the arc spans more than 180 degrees. */
  function DescribeArc(x: real, y: real, radius: real, startAngle: real, endAngle: real,
                       polarToCartesian: (real, real, real, real) -> Point): (path: seq<PathToken>)
    ensures |path| == 15
    ensures path[0] == Word("M") && path[3] == Word("A") && path[11] == Word("L") && path[14] == Word("Z")
    ensures path[1] == Num(polarToCartesian(x, y, radius, endAngle).x)
    ensures path[2] == Num(polarToCartesian(x, y, radius, endAngle).y)
    ensures path[4] == Num(radius) && path[5] == Num(radius) && path[6] == Num(0.0) && path[8] == Num(0.0)
    ensures path[7] == Word("1") <==> endAngle - startAngle > 180.0
    ensures path[7] == Word("0") <==> endAngle - startAngle <= 180.0
    ensures path[9] == Num(polarToCartesian(x, y, radius, startAngle).x)
    ensures path[10] == Num(polarToCartesian(x, y, radius, startAngle).y)
    ensures path[12] == Num(x) && path[13] == Num(y)
  {
    var start := polarToCartesian(x, y, radius, endAngle);
    var end := polarToCartesian(x, y, radius, startAngle);
    [ Word("M"), Num(start.x), Num(start.y),
      Word("A"), Num(radius), Num(radius), Num(0.0), Word(LargeArcFlag(startAngle, endAngle)), Num(0.0), Num(end.x), Num(end.y),
      Word("L"), Num(x), Num(y),
      Word("Z") ]
  }

  datatype PieChart = PieChart(passPath: seq<PathToken>, failPath: seq<PathToken>)

  /** `renderPassFailPieChart` without the SVG: centre (100, 100), radius 80. */
  function RenderPassFailPie(results: seq<ResultRecord>, polarToCartesian: (real, real, real, real) -> Point): PieChart
    requires PassCount(results) + FailCount(results) > 0
  {
    var a := SliceAngles(PassCount(results), FailCount(results));
    PieChart(DescribeArc(100.0, 100.0, 80.0, a.passStart, a.passEnd, polarToCartesian),
             DescribeArc(100.0, 100.0, 80.0, a.failStart, a.failEnd, polarToCartesian))
  }

  /** A slice takes the large arc exactly when it holds more than half of the
      counted results, so at most one of the two does; and the pass slice starts
      where the fail slice's arc ends. */
  lemma PieLargeArcs(results: seq<ResultRecord>, polarToCartesian: (real, real, real, real) -> Point)
    requires PassCount(results) + FailCount(results) > 0
    ensures var chart := RenderPassFailPie(results, polarToCartesian);
      && (chart.passPath[7] == Word("1") <==> 2 * PassCount(results) > PassCount(results) + FailCount(results))
      && (chart.failPath[7] == Word("1") <==> 2 * FailCount(results) > PassCount(results) + FailCount(results))
      && !(chart.passPath[7] == Word("1") && chart.failPath[7] == Word("1"))
      && chart.passPath[1..3] == chart.failPath[9..11]
  {
    var p, f := PassCount(results), FailCount(results);
    HalfShare(p, p + f);
    HalfShare(f, p + f);
  }

  /** When every counted result passed, the pass slice spans the whole circle
      from -90 to 270 degrees: its arc starts and ends at the same point (for a
      `polarToCartesian` that maps the two angles alike), and the fail slice has
      span 0. */
  lemma FullPassArcIsClosed(results: seq<ResultRecord>, polarToCartesian: (real, real, real, real) -> Point)
    requires PassCount(results) > 0 && FailCount(results) == 0
    requires polarToCartesian(100.0, 100.0, 80.0, -90.0) == polarToCartesian(100.0, 100.0, 80.0, 270.0)
    ensures var chart := RenderPassFailPie(results, polarToCartesian);
      && chart.passPath[7] == Word("1")
      && chart.passPath[1] == chart.passPath[9] && chart.passPath[2] == chart.passPath[10]
      && chart.failPath[7] == Word("0")
    ensures SliceAngles(PassCount(results), FailCount(results)).failStart == 270.0
    ensures SliceAngles(PassCount(results), FailCount(results)).failEnd == 270.0
  {
    var p := PassCount(results);
    assert p as real / p as real == 1.0;
  }

  /** A share of 360 degrees is more than 180 exactly when the part is more than
      half of the total. */
  lemma HalfShare(part: nat, total: nat)
    requires total > 0
    ensures part as real / total as real * 360.0 > 180.0 <==> 2 * part > total
  {
    var q := part as real / total as real;
    var t := total as real;
    assert q * t == part as real;
    SignOfProduct(q * 360.0 - 180.0, t);
    assert (q * 360.0 - 180.0) * t == 360.0 * part as real - 180.0 * t;
  }

  lemma SignOfProduct(a: real, t: real)
    requires t > 0.0
    ensures a > 0.0 <==> a * t > 0.0
  {
  }
}

=== FILE: data.dfy ===
/** The records the dashboard receives from the GraphQL backend, reduced to the
    fields that the chart and profile code reads. */
module Data {

  datatype Option<+T> = None | Some(value: T)

  /** A row of the `transaction` table. The source field `type` is called `kind`
      here (`type` is a Dafny keyword); `objectName` is `object.name`, absent when
      the transaction has no object or the object has no name; `objectId` is the
      text that a template literal makes of the id. */
  datatype Transaction = Transaction(kind: string, amount: int, objectId: string, objectName: Option<string>)

  /** A row of `user.skills`: a skill transaction such as `skill_go` with a score. */
  datatype SkillRecord = SkillRecord(kind: string, amount: int)

  /** A row of the `result` table; `grade` is absent (null) for unfinished work
      and may in principle be any number. */
  datatype ResultRecord = ResultRecord(grade: Option<real>)

  /** The sum of the amounts, accumulated from the left starting at 0. */
  function SumAmounts(txs: seq<Transaction>): int
  {
    if |txs| == 0 then 0 else SumAmounts(txs[..|txs| - 1]) + txs[|txs| - 1].amount
  }

  /** Summing is additive over concatenation. */
  lemma {:induction false} SumAmountsAppend(a: seq<Transaction>, b: seq<Transaction>)
    ensures SumAmounts(a + b) == SumAmounts(a) + SumAmounts(b)
    decreases |b|
  {
    if |b| == 0 {
      assert a + b == a;
    } else {
      var b' := b[..|b| - 1];
      assert (a + b)[..|a + b| - 1] == a + b';
      SumAmountsAppend(a, b');
    }
  }
}

=== FILE: js_builtins.dfy ===
/** The JavaScript library calls the core relies on: `Array.prototype.slice(0, end)`,
    `Array.prototype.map`, `Array.prototype.sort` with a numeric comparator (a
    stable sort since ECMAScript 2019) and `String.prototype.replace` with a string
    pattern (which replaces the first occurrence only). */
module JsBuiltins {

  function Min(a: int, b: int): int { if a <= b then a else b }
  function Max(a: int, b: int): int { if a >= b then a else b }

  /** Where `slice(0, end)` stops: a negative end counts from the back. */
  function SliceEnd(len: nat, end: int): (e: nat)
    ensures e <= len
  {
    if end < 0 then (if len + end < 0 then 0 else len + end)
    else if end < len then end else len
  }

  /** `s.slice(0, end)`. */
  function Slice<T>(s: seq<T>, end: int): (r: seq<T>)
    ensures |r| <= |s| && r == s[..|r|]
    ensures 0 <= end ==> |r| == Min(end, |s|)
    ensures end < 0 ==> |r| == Max(0, |s| + end)
  {
    var r := s[..SliceEnd(|s|, end)];
    assert r == s[..|r|];
    r
  }

  /** `s.map(f)`. */
  function MapSeq<A, B>(s: seq<A>, f: A -> B): (r: seq<B>)
    ensures |r| == |s|
    ensures forall i :: 0 <= i < |s| ==> r[i] == f(s[i])
  {
    seq(|s|, i requires 0 <= i < |s| => f(s[i]))
  }

  lemma SliceMap<A, B>(s: seq<A>, f: A -> B, end: int)
    ensures Slice(MapSeq(s, f), end) == MapSeq(Slice(s, end), f)
  {
  }

  ghost predicate Distinct<T>(s: seq<T>)
  {
    forall i, j :: 0 <= i < j < |s| ==> s[i] != s[j]
  }

  /** Sorted in descending order of `key`: the key never grows along `s`. */
  ghost predicate NonIncreasing<T>(s: seq<T>, key: T -> real)
  {
    forall i, j :: 0 <= i < j < |s| ==> key(s[i]) >= key(s[j])
  }

  /** Two elements with the same key appear in `out` in the order in which they
      appear in `s`: what a stable sort promises. */
  ghost predicate KeepsOrder<T>(s: seq<T>, out: seq<T>, key: T -> real)
  {
    forall i, j, a, b ::
      (0 <= i < j < |out| && 0 <= a < |s| && 0 <= b < |s| &&
       out[i] == s[a] && out[j] == s[b] && key(out[i]) == key(out[j])) ==> a < b
  }

  /** Insert x behind every element whose key is at least x's. */
  function Insert<T>(x: T, l: seq<T>, key: T -> real): (r: seq<T>)
    ensures multiset(r) == multiset(l) + multiset{x}
    ensures |r| == |l| + 1
  {
    if |l| == 0 then [x]
    else if key(l[0]) >= key(x) then
      assert l == [l[0]] + l[1..];
      [l[0]] + Insert(x, l[1..], key)
    else [x] + l
  }

  /** The stable descending sort of `s` by `key`, as insertion sort. */
  function SortDesc<T>(s: seq<T>, key: T -> real): (r: seq<T>)
    ensures multiset(r) == multiset(s)
    ensures |r| == |s|
  {
    if |s| == 0 then []
    else
      assert s == s[..|s| - 1] + [s[|s| - 1]];
      Insert(s[|s| - 1], SortDesc(s[..|s| - 1], key), key)
  }

  lemma NonIncreasingTail<T>(l: seq<T>, key: T -> real)
    requires |l| > 0 && NonIncreasing(l, key)
    ensures NonIncreasing(l[1..], key)
  {
    var t := l[1..];
    forall i, j | 0 <= i < j < |t| ensures key(t[i]) >= key(t[j]) {
      assert t[i] == l[i + 1] && t[j] == l[j + 1];
    }
  }

  lemma ConsSplit<T>(l: seq<T>, x: T, k: nat)
    requires 0 < |l| && k < |l|
    ensures [l[0]] + (l[1..][..k] + [x] + l[1..][k..]) == l[..k + 1] + [x] + l[k + 1..]
  {
    assert [l[0]] + l[1..][..k] == l[..k + 1];
    assert l[1..][k..] == l[k + 1..];
  }

  /** Insert puts x between the elements whose key is at least x's and those
      whose key is smaller. */
  lemma {:induction false} InsertSplit<T>(x: T, l: seq<T>, key: T -> real) returns (k: nat)
    requires NonIncreasing(l, key)
    ensures k <= |l|
    ensures Insert(x, l, key) == l[..k] + [x] + l[k..]
    ensures forall i :: 0 <= i < k ==> key(l[i]) >= key(x)
    ensures forall i :: k <= i < |l| ==> key(l[i]) < key(x)
  {
    if |l| == 0 {
      k := 0;
    } else if key(l[0]) >= key(x) {
      var t := l[1..];
      NonIncreasingTail(l, key);
      var k' := InsertSplit(x, t, key);
      k := k' + 1;
      assert Insert(x, l, key) == [l[0]] + Insert(x, t, key);
      ConsSplit(l, x, k');
      forall i | 0 <= i < k ensures key(l[i]) >= key(x) {
        if i > 0 { assert l[i] == t[i - 1]; }
      }
      forall i | k <= i < |l| ensures key(l[i]) < key(x) {
        assert l[i] == t[i - 1];
      }
    } else {
      k := 0;
      forall i | 0 <= i < |l| ensures key(l[i]) < key(x) {
        if i > 0 { assert key(l[0]) >= key(l[i]); }
      }
    }
  }

  lemma {:induction false} InsertSorted<T>(x: T, l: seq<T>, key: T -> real)
    requires NonIncreasing(l, key)
    ensures NonIncreasing(Insert(x, l, key), key)
  {
    var k := InsertSplit(x, l, key);
    var r := Insert(x, l, key);
    forall i, j | 0 <= i < j < |r| ensures key(r[i]) >= key(r[j]) {
      if i < k {
        assert r[i] == l[i];
        if j > k { assert r[j] == l[j - 1]; }
      } else if i == k {
        assert r[j] == l[j - 1];
      } else {
        assert r[i] == l[i - 1] && r[j] == l[j - 1];
      }
    }
  }

  /** SortDesc sorts. */
  lemma {:induction false} SortDescSorted<T>(s: seq<T>, key: T -> real)
    ensures NonIncreasing(SortDesc(s, key), key)
  {
    if |s| > 0 {
      SortDescSorted(s[..|s| - 1], key);
      InsertSorted(s[|s| - 1], SortDesc(s[..|s| - 1], key), key);
    }
  }

  lemma {:induction false} DistinctMultiset<T>(s: seq<T>, t: seq<T>)
    requires Distinct(s)
    requires multiset(s) == multiset(t)
    ensures Distinct(t)
  {
    forall i, j | 0 <= i < j < |t| ensures t[i] != t[j] {
      if t[i] == t[j] {
        assert t == t[..i] + [t[i]] + t[i + 1..j] + [t[j]] + t[j + 1..];
        assert multiset(t)[t[i]] >= 2;
        DistinctOnce(s, t[i]);
        assert false;
      }
    }
  }

  lemma {:induction false} DistinctOnce<T>(s: seq<T>, x: T)
    requires Distinct(s)
    ensures multiset(s)[x] <= 1
  {
    if |s| > 0 {
      var p := s[..|s| - 1];
      assert s == p + [s[|s| - 1]];
      DistinctOnce(p, x);
      if x == s[|s| - 1] {
        assert x !in p;
      }
    }
  }

  /** Inserting a new element x, behind every element whose key is at least
      x's, keeps the relative order of equal keys. */
  lemma StableInsertStep<T>(p: seq<T>, x: T, l: seq<T>, k: nat, key: T -> real)
    requires x !in p && x !in l && k <= |l|
    requires forall i :: k <= i < |l| ==> key(l[i]) < key(x)
    requires KeepsOrder(p, l, key)
    ensures KeepsOrder(p + [x], l[..k] + [x] + l[k..], key)
  {
    var s, out, n := p + [x], l[..k] + [x] + l[k..], |p|;
    forall i, j, a, b |
      0 <= i < j < |out| && 0 <= a < |s| && 0 <= b < |s| &&
      out[i] == s[a] && out[j] == s[b] && key(out[i]) == key(out[j])
      ensures a < b
    {
      // The index in l of out[i] (when it is not x), and likewise for out[j].
      var li := if i < k then i else i - 1;
      var lj := if j < k then j else j - 1;
      if i == k {
      } else if j == k {
        assert out[i] == l[li];
      } else {
        assert out[i] == l[li] && out[j] == l[lj] && li < lj;
        assert p[a] == s[a] && p[b] == s[b];
      }
    }
  }

  /** SortDesc is stable: elements with equal keys keep their relative order. */
  lemma {:induction false} SortDescStable<T>(s: seq<T>, key: T -> real)
    requires Distinct(s)
    ensures KeepsOrder(s, SortDesc(s, key), key)
  {
    if |s| > 0 {
      var n := |s| - 1;
      var p, x := s[..n], s[n];
      assert s == p + [x];
      assert Distinct(p);
      var l := SortDesc(p, key);
      SortDescStable(p, key);
      SortDescSorted(p, key);
      assert x !in multiset(p);
      assert x !in l;
      var k := InsertSplit(x, l, key);
      StableInsertStep(p, x, l, k, key);
    }
  }

  lemma {:induction false} InsertMap<A, B>(x: A, l: seq<A>, f: A -> B, ka: A -> real, kb: B -> real)
    requires forall a :: kb(f(a)) == ka(a)
    ensures Insert(f(x), MapSeq(l, f), kb) == MapSeq(Insert(x, l, ka), f)
  {
    if |l| > 0 && ka(l[0]) >= ka(x) {
      assert MapSeq(l, f)[1..] == MapSeq(l[1..], f);
      InsertMap(x, l[1..], f, ka, kb);
    }
  }

  /** Sorting mapped elements by a key that the map preserves is mapping the
      sorted elements. */
  lemma {:induction false} SortMap<A, B>(s: seq<A>, f: A -> B, ka: A -> real, kb: B -> real)
    requires forall a :: kb(f(a)) == ka(a)
    ensures SortDesc(MapSeq(s, f), kb) == MapSeq(SortDesc(s, ka), f)
  {
    if |s| > 0 {
      var p := s[..|s| - 1];
      assert MapSeq(s, f)[..|s| - 1] == MapSeq(p, f);
      SortMap(p, f, ka, kb);
      InsertMap(s[|s| - 1], SortDesc(p, ka), f, ka, kb);
    }
  }

  /** The pattern `pat` stands in `s` at index k. */
  ghost predicate OccursAt(s: string, pat: string, k: int)
  {
    0 <= k && k + |pat| <= |s| && s[k..k + |pat|] == pat
  }

  /** `s.replace(pat, rep)` with a string pattern: the first occurrence only. */
  function ReplaceFirst(s: string, pat: string, rep: string): string
  {
    if |pat| <= |s| && s[..|pat|] == pat then rep + s[|pat|..]
    else if |s| == 0 then s
    else [s[0]] + ReplaceFirst(s[1..], pat, rep)
  }

  lemma OccursShift(s: string, pat: string, j: nat)
    requires |s| > 0
    ensures OccursAt(s[1..], pat, j) <==> OccursAt(s, pat, j + 1)
  {
    if j + 1 + |pat| <= |s| {
      assert s[1..][j..j + |pat|] == s[j + 1..j + 1 + |pat|];
    }
  }

  /** The first occurrence, and only it, is replaced. */
  lemma {:induction false} ReplaceFirstAt(s: string, pat: string, rep: string, k: nat)
    requires OccursAt(s, pat, k)
    requires forall j :: 0 <= j < k ==> !OccursAt(s, pat, j)
    ensures ReplaceFirst(s, pat, rep) == s[..k] + rep + s[k + |pat|..]
  {
    if k == 0 {
      assert s[..|pat|] == pat;
    } else {
      assert !OccursAt(s, pat, 0);
      forall j | 0 <= j < k - 1 ensures !OccursAt(s[1..], pat, j) {
        OccursShift(s, pat, j);
      }
      OccursShift(s, pat, k - 1);
      ReplaceFirstAt(s[1..], pat, rep, k - 1);
      assert ReplaceFirst(s, pat, rep) == [s[0]] + ReplaceFirst(s[1..], pat, rep);
      assert s[1..][k - 1 + |pat|..] == s[k + |pat|..];
      assert [s[0]] + s[1..][..k - 1] == s[..k];
    }
  }

  /** Without an occurrence the string is unchanged. */
  lemma {:induction false} ReplaceFirstAbsent(s: string, pat: string, rep: string)
    requires forall j :: 0 <= j <= |s| ==> !OccursAt(s, pat, j)
    ensures ReplaceFirst(s, pat, rep) == s
  {
    assert !OccursAt(s, pat, 0);
    if |s| > 0 {
      forall j | 0 <= j <= |s| - 1 ensures !OccursAt(s[1..], pat, j) {
        OccursShift(s, pat, j);
      }
      ReplaceFirstAbsent(s[1..], pat, rep);
      assert s == [s[0]] + s[1..];
    }
  }
}

=== FILE: ordered_maps.dfy ===
/** A string-keyed dictionary that remembers the order in which its keys were
    first set, as a JavaScript `Map` does, and as a plain object does for keys
    that do not look like array indices. Setting a key that is already present
    changes its value and keeps its position; setting a new key appends it. */
module OrderedMaps {

  datatype Entry = Entry(key: string, value: int)

  datatype OrderedMap = OrderedMap(keys: seq<string>, values: map<string, int>)

  /** No key twice, and the order lists exactly the keys of the dictionary. */
  ghost predicate Valid(m: OrderedMap)
  {
    && (forall i, j :: 0 <= i < j < |m.keys| ==> m.keys[i] != m.keys[j])
    && (forall k :: k in m.values <==> k in m.keys)
  }

  function Empty(): (m: OrderedMap)
    ensures Valid(m) && |m.keys| == 0 && |m.values| == 0
  {
    OrderedMap([], map[])
  }

  /** A lookup with a default: the stored value, or `fallback` when k is absent.
      The source falls back on any falsy value; for a stored 0 and a fallback of
      0 that is the same number. */
  function GetOr(m: OrderedMap, k: string, fallback: int): int
  {
    if k in m.values then m.values[k] else fallback
  }

  /** Setting key k to v, on a `Map` or on a plain object. */
  function Put(m: OrderedMap, k: string, v: int): (r: OrderedMap)
    requires Valid(m)
    ensures Valid(r)
    ensures r.values == m.values[k := v]
    ensures k in m.values ==> r.keys == m.keys
    ensures k !in m.values ==> r.keys == m.keys + [k]
  {
    OrderedMap(if k in m.values then m.keys else m.keys + [k], m.values[k := v])
  }

  /** The key/value pairs, in key order. */
  function Entries(m: OrderedMap): (es: seq<Entry>)
    requires Valid(m)
    ensures |es| == |m.keys|
    ensures forall i :: 0 <= i < |es| ==> es[i] == Entry(m.keys[i], m.values[m.keys[i]])
  {
    seq(|m.keys|, i requires 0 <= i < |m.keys| => Entry(m.keys[i], m.values[m.keys[i]]))
  }

  /** The entries of a valid map carry pairwise different keys. */
  lemma EntriesDistinctKeys(m: OrderedMap)
    requires Valid(m)
    ensures forall i, j :: 0 <= i < j < |Entries(m)| ==> Entries(m)[i].key != Entries(m)[j].key
  {
  }

  /** There is an entry for a key exactly when the dictionary holds it, and each
      entry carries its key's stored value. */
  lemma EntriesCoverKeys(m: OrderedMap)
    requires Valid(m)
    ensures forall k :: k in m.values <==> exists i :: 0 <= i < |Entries(m)| && Entries(m)[i].key == k
    ensures forall i :: 0 <= i < |Entries(m)| ==>
      Entries(m)[i].key in m.values && Entries(m)[i].value == m.values[Entries(m)[i].key]
  {
    var es := Entries(m);
    forall k | k in m.values ensures exists i :: 0 <= i < |es| && es[i].key == k {
      var i :| 0 <= i < |m.keys| && m.keys[i] == k;
      assert es[i].key == k;
    }
  }

  /** The order of a valid map is as long as its key set is large. */
  lemma {:induction false} KeyCount(m: OrderedMap)
    requires Valid(m)
    ensures |m.values.Keys| == |m.keys|
  {
    DistinctCard(m.keys);
    assert m.values.Keys == set k | k in m.keys;
  }

  lemma {:induction false} DistinctCard(s: seq<string>)
    requires forall i, j :: 0 <= i < j < |s| ==> s[i] != s[j]
    ensures |set k | k in s| == |s|
  {
    if |s| > 0 {
      var p := s[..|s| - 1];
      DistinctCard(p);
      assert (set k | k in s) == (set k | k in p) + {s[|s| - 1]};
      assert s[|s| - 1] !in p;
    }
  }

  /** The sum of the values listed in `ks`, from the left. */
  function SumOver(ks: seq<string>, vals: map<string, int>): int
    requires forall k :: k in ks ==> k in vals
  {
    if |ks| == 0 then 0 else SumOver(ks[..|ks| - 1], vals) + vals[ks[|ks| - 1]]
  }

  /** The sum of all values. */
  function SumValues(m: OrderedMap): int
    requires Valid(m)
  {
    SumOver(m.keys, m.values)
  }

  lemma {:induction false} SumOverUpdateAbsent(ks: seq<string>, vals: map<string, int>, k: string, v: int)
    requires forall x :: x in ks ==> x in vals
    requires k !in ks
    ensures SumOver(ks, vals[k := v]) == SumOver(ks, vals)
  {
    if |ks| > 0 {
      SumOverUpdateAbsent(ks[..|ks| - 1], vals, k, v);
    }
  }

  lemma {:induction false} SumOverUpdateOnce(ks: seq<string>, vals: map<string, int>, k: string, v: int)
    requires forall x :: x in ks ==> x in vals
    requires forall i, j :: 0 <= i < j < |ks| ==> ks[i] != ks[j]
    requires k in ks
    ensures SumOver(ks, vals[k := v]) == SumOver(ks, vals) - vals[k] + v
  {
    var p := ks[..|ks| - 1];
    if ks[|ks| - 1] == k {
      assert k !in p;
      SumOverUpdateAbsent(p, vals, k, v);
    } else {
      SumOverUpdateOnce(p, vals, k, v);
    }
  }

  /** Setting a key changes the sum of the values by the difference between the
      new value and the old one (an absent key counting as 0). */
  lemma PutSum(m: OrderedMap, k: string, v: int)
    requires Valid(m)
    ensures SumValues(Put(m, k, v)) == SumValues(m) - GetOr(m, k, 0) + v
  {
    if k in m.values {
      SumOverUpdateOnce(m.keys, m.values, k, v);
    } else {
      var ks := m.keys + [k];
      assert ks[..|ks| - 1] == m.keys;
      SumOverUpdateAbsent(m.keys, m.values, k, v);
    }
  }
}

=== FILE: profile_manager.dfy ===
/** The computations of src/profileManager.js: the total of the `xp`
    transactions shown in the summary, its label, and `getTopUniqueSkills`. */
module ProfileManager {
  import opened Data
  import opened OrderedMaps
  import opened JsBuiltins
  import opened Skills

  /** The transactions whose type is exactly `xp`, in their original order. */
  function XpTransactions(transactions: seq<Transaction>): (xp: seq<Transaction>)
    ensures |xp| <= |transactions|
    ensures forall tx :: tx in xp ==> tx.kind == "xp" && tx in transactions
    ensures forall tx :: tx in transactions && tx.kind == "xp" ==> tx in xp
  {
    if |transactions| == 0 then []
    else
      var last := transactions[|transactions| - 1];
      XpTransactions(transactions[..|transactions| - 1]) + (if last.kind == "xp" then [last] else [])
  }

  /** Every transaction of type `xp` is kept as many times as it occurs, and no
      other transaction is kept. */
  lemma {:induction false} XpTransactionsCount(transactions: seq<Transaction>)
    ensures forall tx ::
      multiset(XpTransactions(transactions))[tx] == (if tx.kind == "xp" then multiset(transactions)[tx] else 0)
  {
    if |transactions| > 0 {
      var n := |transactions| - 1;
      var p, last := transactions[..n], transactions[n];
      assert transactions == p + [last];
      XpTransactionsCount(p);
      var tail := if last.kind == "xp" then [last] else [];
      assert XpTransactions(transactions) == XpTransactions(p) + tail;
      assert multiset(XpTransactions(transactions)) == multiset(XpTransactions(p)) + multiset(tail);
      assert multiset(transactions) == multiset(p) + multiset{last};
    }
  }

  /** The filter works piece by piece: filtering a concatenation concatenates the
      filtered pieces, so the kept transactions stay in their original order. */
  lemma {:induction false} XpTransactionsAppend(a: seq<Transaction>, b: seq<Transaction>)
    ensures XpTransactions(a + b) == XpTransactions(a) + XpTransactions(b)
    decreases |b|
  {
    if |b| == 0 {
      assert a + b == a;
    } else {
      var b' := b[..|b| - 1];
      assert (a + b)[..|a + b| - 1] == a + b';
      XpTransactionsAppend(a, b');
    }
  }

  /** A single transaction is kept exactly when its type is `xp`. */
  lemma XpTransactionsSingle(tx: Transaction)
    ensures XpTransactions([tx]) == if tx.kind == "xp" then [tx] else []
  {
    assert [tx][..0] == [];
  }

  /** The summary total: the `xp` transactions filtered out, their amounts summed. */
  function TotalXp(transactions: seq<Transaction>): int
  {
    SumAmounts(XpTransactions(transactions))
  }

  /** Reference definition: every transaction contributes its amount when its type
      is `xp` and nothing otherwise. */
  function XpContribution(tx: Transaction): int
  {
    if tx.kind == "xp" then tx.amount else 0
  }

  function SumXpContributions(transactions: seq<Transaction>): int
  {
    if |transactions| == 0 then 0
    else SumXpContributions(transactions[..|transactions| - 1]) + XpContribution(transactions[|transactions| - 1])
  }

  /** The filter-then-sum total is the sum of every transaction's contribution. */
  lemma {:induction false} TotalXpIsSumOfContributions(transactions: seq<Transaction>)
    ensures TotalXp(transactions) == SumXpContributions(transactions)
  {
    if |transactions| > 0 {
      var n := |transactions| - 1;
      var last := transactions[n];
      var xs := XpTransactions(transactions[..n]);
      var tail := if last.kind == "xp" then [last] else [];
      assert XpTransactions(transactions) == xs + tail;
      TotalXpIsSumOfContributions(transactions[..n]);
      SumAmountsAppend(xs, tail);
      assert SumAmounts(tail) == XpContribution(last) by {
        assert [last][..0] == [];
      }
    }
  }

  /** The total is additive over concatenation. */
  lemma {:induction false} TotalXpAppend(a: seq<Transaction>, b: seq<Transaction>)
    ensures TotalXp(a + b) == TotalXp(a) + TotalXp(b)
  {
    TotalXpIsSumOfContributions(a + b);
    TotalXpIsSumOfContributions(a);
    TotalXpIsSumOfContributions(b);
    SumContributionsAppend(a, b);
  }

  lemma {:induction false} SumContributionsAppend(a: seq<Transaction>, b: seq<Transaction>)
    ensures SumXpContributions(a + b) == SumXpContributions(a) + SumXpContributions(b)
    decreases |b|
  {
    if |b| == 0 {
      assert a + b == a;
    } else {
      var b' := b[..|b| - 1];
      assert (a + b)[..|a + b| - 1] == a + b';
      SumContributionsAppend(a, b');
    }
  }

  /** A transaction of another type, wherever it stands, leaves the total unchanged. */
  lemma TotalXpIgnoresOtherTypes(a: seq<Transaction>, tx: Transaction, b: seq<Transaction>)
    requires tx.kind != "xp"
    ensures TotalXp(a + [tx] + b) == TotalXp(a + b)
  {
    TotalXpAppend(a + [tx], b);
    TotalXpAppend(a, [tx]);
    TotalXpAppend(a, b);
    assert XpTransactions([tx]) == [];
  }

  /** The three units of `formatXP`, named after the platform's stylised units,
      not sizes. */
  datatype Unit = XP | KB | MB

  /** The text printed after the value. */
  function Suffix(u: Unit): string
  {
    match u
    case XP => " XP"
    case KB => " KB"
    case MB => " MB"
  }

  function Divisor(u: Unit): int
  {
    match u
    case XP => 1
    case KB => 1000
    case MB => 1000000
  }

  /** A label: the scaled value (printed verbatim for XP, to two decimals for KB
      and MB) followed by the unit's suffix. */
  datatype XpLabel = XpLabel(value: real, unit: Unit)

  /** `formatXP(amount)`: exactly one of three thresholds applies, and the value
      is the exact quotient of the amount by the unit's divisor, before
      `toFixed(2)` rounds it for display. */
  function FormatXp(amount: int): (shown: XpLabel)
    ensures shown.unit == XP <==> amount < 1000
    ensures shown.unit == KB <==> 1000 <= amount < 1000000
    ensures shown.unit == MB <==> 1000000 <= amount
    ensures shown.value * Divisor(shown.unit) as real == amount as real
    ensures shown.unit != XP ==> 1.0 <= shown.value
    ensures shown.unit == KB ==> shown.value < 1000.0
    ensures Suffix(shown.unit) == " XP" <==> amount < 1000
    ensures Suffix(shown.unit) == " MB" <==> 1000000 <= amount
  {
    if amount < 1000 then XpLabel(amount as real, XP)
    else if amount < 1000000 then XpLabel(amount as real / 1000.0, KB)
    else XpLabel(amount as real / 1000000.0, MB)
  }

  /** `getTopUniqueSkills(skills, limit = 8)`: the `forEach` loop fills the
      insertion-ordered `skillMap`, then the entries are ranked. */
  method GetTopUniqueSkills(skills: seq<SkillRecord>, limit: int := DefaultLimit) returns (top: seq<Skill>)
    ensures top == TopUniqueSkills(skills, limit)
    ensures 0 <= limit ==> |top| == Min(limit, |PositiveKinds(skills)|)
    ensures forall i, j :: 0 <= i < j < |top| ==> top[i].level >= top[j].level
  {
    var skillMap := Empty();
    for i := 0 to |skills|
      invariant skillMap == KeepMax(skills[..i])
    {
      var skill := skills[i];
      var existingAmount := GetOr(skillMap, skill.kind, 0);
      if skill.amount > existingAmount {
        skillMap := Put(skillMap, skill.kind, skill.amount);
      }
      assert skills[..i + 1][..i] == skills[..i];
    }
    assert skills[..|skills|] == skills;
    top := Rank(skillMap, limit);
    TopUniqueSkillsSpec(skills, limit);
  }
}

=== FILE: skills.dfy ===
/** What `getTopUniqueSkills(skills, limit = 8)` computes: the skill records are
    folded into a `Map` from type to the largest amount seen for it, each entry
    becomes `{ name, level }` with the `skill_` prefix removed and the amount read
    as a percentage, the list is sorted by level from high to low and its first
    `limit` elements are kept. The two copies of the function in the repository run
    the fold as a loop (see ProfileManager and Utils); this module holds the
    definition they are proved against and what is proved about it. */
module Skills {
  import opened Data
  import opened OrderedMaps
  import opened JsBuiltins

  /** One card of the skills grid. */
  datatype Skill = Skill(name: string, level: real)

  const DefaultLimit: int := 8
  const SkillPrefix: string := "skill_"

  /** One `forEach` step: the amount is stored when it beats the stored amount,
      or 0 when the type has none yet. */
  function KeepMaxStep(m: OrderedMap, s: SkillRecord): (r: OrderedMap)
    requires Valid(m)
    ensures Valid(r)
  {
    if s.amount > GetOr(m, s.kind, 0) then Put(m, s.kind, s.amount) else m
  }

  /** The `skillMap` after the `forEach` loop has seen every record. */
  function KeepMax(skills: seq<SkillRecord>): (m: OrderedMap)
    ensures Valid(m)
  {
    if |skills| == 0 then Empty()
    else KeepMaxStep(KeepMax(skills[..|skills| - 1]), skills[|skills| - 1])
  }

  /** Record i is of type t and has a positive amount. */
  ghost predicate PositiveAt(skills: seq<SkillRecord>, i: int, t: string)
  {
    0 <= i < |skills| && skills[i].kind == t && skills[i].amount > 0
  }

  ghost predicate HasPositive(skills: seq<SkillRecord>, t: string)
  {
    exists i :: PositiveAt(skills, i, t)
  }

  /** a is the largest amount among the records of type t. */
  ghost predicate IsMaxAmount(skills: seq<SkillRecord>, t: string, a: int)
  {
    && (exists i :: 0 <= i < |skills| && skills[i].kind == t && skills[i].amount == a)
    && (forall i :: 0 <= i < |skills| && skills[i].kind == t ==> skills[i].amount <= a)
  }

  /** Type t got a positive amount before type u first did. */
  ghost predicate PositiveFirst(skills: seq<SkillRecord>, t: string, u: string)
  {
    forall j :: PositiveAt(skills, j, u) ==> exists i :: i < j && PositiveAt(skills, i, t)
  }

  /** The types that have at least one record with a positive amount. */
  function PositiveKinds(skills: seq<SkillRecord>): set<string>
  {
    set i | 0 <= i < |skills| && skills[i].amount > 0 :: skills[i].kind
  }

  lemma HasPositiveSnoc(skills: seq<SkillRecord>, t: string)
    requires |skills| > 0
    ensures HasPositive(skills, t) <==>
      HasPositive(skills[..|skills| - 1], t) || PositiveAt(skills, |skills| - 1, t)
  {
    var p := skills[..|skills| - 1];
    if HasPositive(skills, t) && !PositiveAt(skills, |skills| - 1, t) {
      var i :| PositiveAt(skills, i, t);
      assert PositiveAt(p, i, t);
    }
    if HasPositive(p, t) {
      var i :| PositiveAt(p, i, t);
      assert PositiveAt(skills, i, t);
    }
  }

  /** A type is in the map exactly when one of its records has a positive amount;
      types whose amounts are all zero or negative never appear. */
  lemma {:induction false} KeepMaxKeys(skills: seq<SkillRecord>)
    ensures forall t :: t in KeepMax(skills).values <==> HasPositive(skills, t)
    ensures forall t :: t in KeepMax(skills).values ==> KeepMax(skills).values[t] > 0
  {
    if |skills| > 0 {
      var n := |skills| - 1;
      var p, s := skills[..n], skills[n];
      KeepMaxKeys(p);
      forall t ensures t in KeepMax(skills).values <==> HasPositive(skills, t) {
        HasPositiveSnoc(skills, t);
      }
    }
  }

  /** A record that beats every earlier record of its type holds the maximum. */
  lemma IsMaxAmountSnocNew(p: seq<SkillRecord>, s: SkillRecord)
    requires forall i :: 0 <= i < |p| && p[i].kind == s.kind ==> p[i].amount < s.amount
    ensures IsMaxAmount(p + [s], s.kind, s.amount)
  {
    var q := p + [s];
    assert q[|p|] == s;
    forall i | 0 <= i < |q| && q[i].kind == s.kind ensures q[i].amount <= s.amount {
      if i < |p| { assert q[i] == p[i]; }
    }
  }

  /** A record that does not beat the maximum of its type leaves it in place. */
  lemma IsMaxAmountSnocOld(p: seq<SkillRecord>, s: SkillRecord, t: string, v: int)
    requires IsMaxAmount(p, t, v)
    requires s.kind == t ==> s.amount <= v
    ensures IsMaxAmount(p + [s], t, v)
  {
    var q := p + [s];
    var w :| 0 <= w < |p| && p[w].kind == t && p[w].amount == v;
    assert q[w] == p[w];
    forall i | 0 <= i < |q| && q[i].kind == t ensures q[i].amount <= v {
      if i < |p| { assert q[i] == p[i]; }
    }
  }

  /** The stored amount of a type is the largest amount among its records: the
      maximum, not the sum. */
  lemma {:induction false} KeepMaxValues(skills: seq<SkillRecord>)
    ensures forall t :: t in KeepMax(skills).values ==> IsMaxAmount(skills, t, KeepMax(skills).values[t])
  {
    if |skills| > 0 {
      var n := |skills| - 1;
      var p, s := skills[..n], skills[n];
      assert skills == p + [s];
      var m := KeepMax(p);
      KeepMaxValues(p);
      KeepMaxKeys(p);
      if s.amount > GetOr(m, s.kind, 0) {
        forall i | 0 <= i < |p| && p[i].kind == s.kind ensures p[i].amount < s.amount {
          if s.kind !in m.values && p[i].amount > 0 {
            assert PositiveAt(p, i, s.kind);
          }
        }
        IsMaxAmountSnocNew(p, s);
      }
      forall t | t in KeepMax(skills).values && !(t == s.kind && s.amount > GetOr(m, t, 0))
        ensures IsMaxAmount(skills, t, KeepMax(skills).values[t])
      {
        IsMaxAmountSnocOld(p, s, t, m.values[t]);
      }
    }
  }

  /** The map lists the types in the order in which each first got a positive
      amount. */
  lemma {:induction false} KeepMaxOrder(skills: seq<SkillRecord>)
    ensures forall i, j :: 0 <= i < j < |KeepMax(skills).keys| ==>
      PositiveFirst(skills, KeepMax(skills).keys[i], KeepMax(skills).keys[j])
  {
    if |skills| > 0 {
      var n := |skills| - 1;
      var p, s := skills[..n], skills[n];
      var m, r := KeepMax(p), KeepMax(skills);
      KeepMaxOrder(p);
      KeepMaxKeys(p);
      forall i, j | 0 <= i < j < |r.keys| ensures PositiveFirst(skills, r.keys[i], r.keys[j]) {
        var t, u := r.keys[i], r.keys[j];
        assert t in m.keys && t in m.values;
        assert HasPositive(p, t);
        var w :| PositiveAt(p, w, t);
        assert PositiveAt(skills, w, t);
        forall j' | PositiveAt(skills, j', u) ensures exists i' :: i' < j' && PositiveAt(skills, i', t) {
          if j' < n {
            assert PositiveAt(p, j', u);
            if j < |m.keys| {
              assert PositiveFirst(p, t, u);
              var i' :| i' < j' && PositiveAt(p, i', t);
              assert PositiveAt(skills, i', t);
            }
          } else {
            assert w < j';
          }
        }
      }
    }
  }

  /** The map holds one entry per type with a positive amount. */
  lemma KeepMaxCount(skills: seq<SkillRecord>)
    ensures |KeepMax(skills).keys| == |PositiveKinds(skills)|
    ensures KeepMax(skills).values.Keys == PositiveKinds(skills)
  {
    var m := KeepMax(skills);
    KeepMaxKeys(skills);
    forall t | t in PositiveKinds(skills) ensures t in m.values {
      var i :| 0 <= i < |skills| && skills[i].amount > 0 && skills[i].kind == t;
      assert PositiveAt(skills, i, t);
    }
    forall t | t in m.values ensures t in PositiveKinds(skills) {
      var i :| PositiveAt(skills, i, t);
    }
    assert m.values.Keys == PositiveKinds(skills);
    KeyCount(m);
  }

  /** `amount / 100`: the score read as a fraction. */
  function EntryLevel(e: Entry): real
  {
    e.value as real / 100.0
  }

  function SkillLevel(s: Skill): real
  {
    s.level
  }

  /** An entry as a ranked skill: the name is the type without its first
      `skill_`, the level is the amount read as a fraction of 100. */
  function ToSkill(e: Entry): Skill
  {
    Skill(ReplaceFirst(e.key, SkillPrefix, ""), EntryLevel(e))
  }

  /** The pipeline after the loop: entries, map, sort by level descending, slice. */
  function Rank(skillMap: OrderedMap, limit: int): seq<Skill>
    requires Valid(skillMap)
  {
    Slice(SortDesc(MapSeq(Entries(skillMap), ToSkill), SkillLevel), limit)
  }

  /** `getTopUniqueSkills(skills, limit)`. */
  function TopUniqueSkills(skills: seq<SkillRecord>, limit: int := DefaultLimit): seq<Skill>
  {
    Rank(KeepMax(skills), limit)
  }

  /** The map entries that the selected skills are made from, in output order. */
  function TopEntries(skills: seq<SkillRecord>, limit: int): seq<Entry>
  {
    Slice(SortDesc(Entries(KeepMax(skills)), EntryLevel), limit)
  }

  /** The types of a list of entries. */
  function Kinds(es: seq<Entry>): set<string>
  {
    set e | e in es :: e.key
  }

  /** Sorting the skills by level is sorting the entries by amount and then
      turning each into a skill. */
  lemma TopUniqueSkillsFromEntries(skills: seq<SkillRecord>, limit: int)
    ensures TopUniqueSkills(skills, limit) == MapSeq(TopEntries(skills, limit), ToSkill)
  {
    var es := Entries(KeepMax(skills));
    SortMap(es, ToSkill, EntryLevel, SkillLevel);
    SliceMap(SortDesc(es, EntryLevel), ToSkill, limit);
  }

  /** Every selected entry is an entry of the map. */
  lemma TopEntryInMap(skills: seq<SkillRecord>, limit: int, i: int) returns (a: nat)
    requires 0 <= i < |TopEntries(skills, limit)|
    ensures a < |KeepMax(skills).keys|
    ensures TopEntries(skills, limit)[i] == Entries(KeepMax(skills))[a]
  {
    var es := Entries(KeepMax(skills));
    var all := SortDesc(es, EntryLevel);
    assert TopEntries(skills, limit)[i] == all[i];
    assert all[i] in multiset(es);
    a :| 0 <= a < |es| && es[a] == all[i];
  }

  /** `slice(0, limit)` keeps `min(limit, number of types with a positive
      amount)` entries (a negative limit drops that many from the end). */
  lemma TopEntriesCount(skills: seq<SkillRecord>, limit: int)
    ensures 0 <= limit ==> |TopEntries(skills, limit)| == Min(limit, |PositiveKinds(skills)|)
    ensures limit < 0 ==> |TopEntries(skills, limit)| == Max(0, |PositiveKinds(skills)| + limit)
  {
    KeepMaxCount(skills);
  }

  /** No two selected entries come from the same type. */
  lemma TopEntriesUnique(skills: seq<SkillRecord>, limit: int)
    ensures forall i, j :: 0 <= i < j < |TopEntries(skills, limit)| ==>
      TopEntries(skills, limit)[i].key != TopEntries(skills, limit)[j].key
  {
    var es := Entries(KeepMax(skills));
    var all := SortDesc(es, EntryLevel);
    var r := TopEntries(skills, limit);
    EntriesDistinctKeys(KeepMax(skills));
    DistinctMultiset(es, all);
    forall i, j | 0 <= i < j < |r| ensures r[i].key != r[j].key {
      var a := TopEntryInMap(skills, limit, i);
      var b := TopEntryInMap(skills, limit, j);
      assert r[i] == all[i] && r[j] == all[j];
    }
  }

  /** Every selected entry is a type with a positive amount, paired with the
      largest amount among that type's records. */
  lemma TopEntriesMax(skills: seq<SkillRecord>, limit: int)
    ensures forall i :: 0 <= i < |TopEntries(skills, limit)| ==>
      && HasPositive(skills, TopEntries(skills, limit)[i].key)
      && TopEntries(skills, limit)[i].value > 0
      && IsMaxAmount(skills, TopEntries(skills, limit)[i].key, TopEntries(skills, limit)[i].value)
  {
    var r := TopEntries(skills, limit);
    KeepMaxKeys(skills);
    KeepMaxValues(skills);
    forall i | 0 <= i < |r|
      ensures HasPositive(skills, r[i].key) && r[i].value > 0 && IsMaxAmount(skills, r[i].key, r[i].value)
    {
      var a := TopEntryInMap(skills, limit, i);
    }
  }

  /** The selected amounts never increase from one entry to the next. */
  lemma TopEntriesSorted(skills: seq<SkillRecord>, limit: int)
    ensures forall i, j :: 0 <= i < j < |TopEntries(skills, limit)| ==>
      TopEntries(skills, limit)[i].value >= TopEntries(skills, limit)[j].value
  {
    var all := SortDesc(Entries(KeepMax(skills)), EntryLevel);
    SortDescSorted(Entries(KeepMax(skills)), EntryLevel);
    var r := TopEntries(skills, limit);
    forall i, j | 0 <= i < j < |r| ensures r[i].value >= r[j].value {
      assert r[i] == all[i] && r[j] == all[j];
      assert EntryLevel(all[i]) >= EntryLevel(all[j]);
    }
  }

  /** Entries with equal amounts keep the map's order: the type that got a
      positive amount first comes first. */
  lemma TopEntriesStable(skills: seq<SkillRecord>, limit: int)
    ensures forall i, j ::
      (0 <= i < j < |TopEntries(skills, limit)| &&
       TopEntries(skills, limit)[i].value == TopEntries(skills, limit)[j].value) ==>
      PositiveFirst(skills, TopEntries(skills, limit)[i].key, TopEntries(skills, limit)[j].key)
  {
    var m := KeepMax(skills);
    var es := Entries(m);
    var all := SortDesc(es, EntryLevel);
    var r := TopEntries(skills, limit);
    EntriesDistinctKeys(m);
    SortDescStable(es, EntryLevel);
    KeepMaxOrder(skills);
    forall i, j | 0 <= i < j < |r| && r[i].value == r[j].value
      ensures PositiveFirst(skills, r[i].key, r[j].key)
    {
      var a := TopEntryInMap(skills, limit, i);
      var b := TopEntryInMap(skills, limit, j);
      assert r[i] == all[i] && r[j] == all[j];
      assert EntryLevel(all[i]) == EntryLevel(all[j]);
      assert a < b;
      assert es[a].key == m.keys[a] && es[b].key == m.keys[b];
    }
  }

  /** The cut keeps the best: a record whose type was not selected has an
      amount no larger than any selected one. */
  lemma TopEntriesAreTop(skills: seq<SkillRecord>, limit: int)
    ensures forall i, k ::
      (0 <= i < |TopEntries(skills, limit)| && 0 <= k < |skills| &&
       skills[k].kind !in Kinds(TopEntries(skills, limit))) ==>
      skills[k].amount <= TopEntries(skills, limit)[i].value
  {
    var m := KeepMax(skills);
    var es := Entries(m);
    var all := SortDesc(es, EntryLevel);
    var r := TopEntries(skills, limit);
    SortDescSorted(es, EntryLevel);
    TopEntriesMax(skills, limit);
    KeepMaxKeys(skills);
    KeepMaxValues(skills);
    forall i, k | 0 <= i < |r| && 0 <= k < |skills| && skills[k].kind !in Kinds(r)
      ensures skills[k].amount <= r[i].value
    {
      var t := skills[k].kind;
      if skills[k].amount > 0 {
        assert PositiveAt(skills, k, t);
        assert t in m.values && t in m.keys;
        var a :| 0 <= a < |m.keys| && m.keys[a] == t;
        assert es[a] in multiset(all);
        var c :| 0 <= c < |all| && all[c] == es[a];
        assert r[i] == all[i];
        assert EntryLevel(all[i]) >= EntryLevel(all[c]);
        assert skills[k].amount <= m.values[t];
      }
    }
  }

  /** Each selected skill is its entry's type without the first `skill_`, with
      the entry's amount divided by 100 as level; the levels never increase; and
      the number of skills is that of the selected entries. */
  lemma TopUniqueSkillsSpec(skills: seq<SkillRecord>, limit: int)
    ensures |TopUniqueSkills(skills, limit)| == |TopEntries(skills, limit)|
    ensures forall i :: 0 <= i < |TopUniqueSkills(skills, limit)| ==>
      && TopUniqueSkills(skills, limit)[i].name == ReplaceFirst(TopEntries(skills, limit)[i].key, SkillPrefix, "")
      && TopUniqueSkills(skills, limit)[i].level == TopEntries(skills, limit)[i].value as real / 100.0
    ensures forall i, j :: 0 <= i < j < |TopUniqueSkills(skills, limit)| ==>
      TopUniqueSkills(skills, limit)[i].level >= TopUniqueSkills(skills, limit)[j].level
    ensures 0 <= limit ==> |TopUniqueSkills(skills, limit)| == Min(limit, |PositiveKinds(skills)|)
  {
    TopUniqueSkillsFromEntries(skills, limit);
    TopEntriesSorted(skills, limit);
    TopEntriesCount(skills, limit);
  }
}

=== FILE: utils.dfy ===
/** The copy of `getTopUniqueSkills` in src/utils.js. */
module Utils {
  import opened Data
  import opened OrderedMaps
  import opened JsBuiltins
  import opened Skills
  import ProfileManager

  /** The same loop and pipeline as in src/profileManager.js, written out again as
      the repository does. */
  method GetTopUniqueSkills(skills: seq<SkillRecord>, limit: int := DefaultLimit) returns (top: seq<Skill>)
    ensures top == TopUniqueSkills(skills, limit)
    ensures 0 <= limit ==> |top| == Min(limit, |PositiveKinds(skills)|)
    ensures forall i, j :: 0 <= i < j < |top| ==> top[i].level >= top[j].level
  {
    var skillMap := Empty();
    for i := 0 to |skills|
      invariant skillMap == KeepMax(skills[..i])
    {
      var skill := skills[i];
      var existingAmount := GetOr(skillMap, skill.kind, 0);
      if skill.amount > existingAmount {
        skillMap := Put(skillMap, skill.kind, skill.amount);
      }
      assert skills[..i + 1][..i] == skills[..i];
    }
    assert skills[..|skills|] == skills;
    top := Rank(skillMap, limit);
    TopUniqueSkillsSpec(skills, limit);
  }

  /** Both copies return the same skills for every input and every limit. */
  method CopiesAgree(skills: seq<SkillRecord>, limit: int) returns (fromUtils: seq<Skill>, fromProfileManager: seq<Skill>)
    ensures fromUtils == fromProfileManager
  {
    fromUtils := GetTopUniqueSkills(skills, limit);
    fromProfileManager := ProfileManager.GetTopUniqueSkills(skills, limit);
  }
}
